=== FILE: README.md ===
# ProFixa reservation lifecycle, modelled in Dafny

This project models the booking backend's three HTTP handlers in `index.js`:

- `POST /crear-preferencia` validates a booking and inserts a `pendiente` row into `reservas`. It then asks MercadoPago for a checkout preference that refers back to the row, and stores the returned `preference_id`.
- `POST /webhook` looks up the notified payment. It maps the payment's status to `pagado` or `fallida` and writes that to the row named by the payment's `external_reference`. It always answers 200.
- `GET /reservas` returns every row, newest `created_at` first.

The `reservas` table is a finite map from rowid to a `Reserva` record. The record holds `profesional`, `categoria`, `ciudad`, `precio`, `estado`, `preference_id` and `created_at`. The table also carries AUTOINCREMENT's high-water mark.

Each handler is a pure function. It takes the table, the request and the payment gateway's answer. It returns the new table and the response. The booking handler also returns the preference it sent, and the webhook returns the payment id it queried. The gateway itself is not modelled. Its answer is an input that may be a success or a thrown error.

Modules, one file each:

| file | module | content |
|---|---|---|
| `wrappers.dfy` | `Wrappers` | `Option` |
| `decimal.dfy` | `Decimal` | `toString()` of an id and SQLite's reading of it back |
| `reservas.dfy` | `Reservas` | the table, its AUTOINCREMENT invariant, the INSERT and the two UPDATEs |
| `http.dfy` | `Http` | status codes, JSON bodies and JavaScript truthiness of a string field |
| `preferencias.dfy` | `Preferencias` | `/crear-preferencia` |
| `webhook.dfy` | `Webhook` | `/webhook` and sequences of notifications |
| `listado.dfy` | `Listado` | `/reservas` |
| `lifecycle.dfy` | `Lifecycle` | bookings and notifications served in sequence |
| `as_written.dfy` | `AsWritten` | the handlers with the SDK binding as the code has it (see Findings) |

A stricter design would make paid and failed terminal, require a positive price, attach a preference id only once and authenticate the listing (its banner at index.js:158 marks it as an admin endpoint). The model follows the code, which does none of these:

- Status writes are an unconditional `UPDATE ... SET estado = ... WHERE id = ?` with no compare-and-set. So `pagado` and `fallida` are not terminal: a later `rejected` overwrites `pagado`, and the last notification wins. A duplicate is harmless unless a notification that writes a different estado to the same row arrives between the original and the copy. Then the late copy writes its estado back, so an approval redelivered after a rejection pays the row again.
- Validation is JavaScript truthiness only. There is no positivity or integer check, so a negative `precio` is accepted.
- There is no "attach once" guard on `preference_id`. It is written once per booking, on the row that booking inserted.
- A gateway failure on booking answers 500, never 502.
- `GET /reservas` checks no credential.

## Model

| member | source | states |
|---|---|---|
| `Decimal.NatToDecimal` | index.js:137 | the `external_reference` sent for an id is a non-empty string of decimal digits without a leading zero |
| `Decimal.ParseId` | index.js:200-202 | a reference selects a row exactly when it is a non-empty digit string; anything else matches no row |
| `Decimal.ParseDecimal` | index.js:137 | round trip: the reference the booking sends is read back by the webhook's `WHERE id = ?` as the same id |
| `Decimal.DecimalInjective` | index.js:137 | distinct reservations are sent distinct references |
| `Reservas.Insert` | index.js:114-120 | the INSERT adds exactly one row under an id larger than every existing id, with estado `pendiente`, `preference_id` NULL and the given fields; no other row changes; the AUTOINCREMENT invariant is kept |
| `Reservas.SetEstado` | index.js:200-210 | the estado UPDATE changes only the addressed row's estado, regardless of its prior value; an id with no row changes nothing |
| `Reservas.SetPreferenceId` | index.js:143-146 | the preference UPDATE changes only the addressed row's `preference_id` |
| `Preferencias.CreatePreference` | index.js:103-155 | 400 exactly when a field is missing or falsy, and then no write and no gateway call. Otherwise one new pending row with the given fields under a fresh, larger id, and a preference sent with reference = new id in decimal, title `categoria - profesional`, quantity 1, `unit_price` = precio, currency COP, the front-end back URLs, `auto_return` approved and `BASE_URL/webhook`. On gateway success: `preference_id` set and 200 with `init_point`. On failure: the row stays with NULL `preference_id`, and 500 |
| `Preferencias.NonZeroPriceAccepted` | index.js:105-109 | any non-zero price, negative included, passes validation and is stored as given |
| `Preferencias.SentReferenceNamesNewRow` | index.js:120-137 | the preference's `external_reference` resolves to the inserted row, which did not exist before |
| `Webhook.TargetEstado` | index.js:199-211 | approved maps to `pagado`, rejected or cancelled to `fallida`, every other status to no write (each as an if-and-only-if) |
| `Webhook.HandleWebhook` | index.js:176-218 | always 200. The payment is queried by `data.id`, and only when it is truthy. The table is unchanged when `data.id` is absent, the lookup throws, or the payment has no `external_reference`. Otherwise it matches an independent decision table: only the referenced row's estado changes, whatever it was, and an unknown reference changes nothing. The AUTOINCREMENT invariant is kept |
| `Webhook.ReplayIdempotent` | index.js:199-211 | a notification redelivered immediately after itself, with the same payment answer, at any point of a sequence, leaves the table as one delivery did |
| `Webhook.DelayedReplayReapplies` | index.js:199-211 | a delayed duplicate is not idempotent: an approval redelivered after a later rejection of the same row writes `pagado` back over `fallida`, so the table differs from the one without the duplicate |
| `Webhook.DelayedReplayHarmless` | index.js:199-211 | a duplicate delivered later, after any notifications that write no different estado to the row it addresses (other rows, statuses that map to nothing, the same estado), leaves the table as it was without the copy |
| `Webhook.FailureOverwritesPaid` | index.js:206-210 | whatever earlier notifications did to a row, an approval to `pagado` included, a rejected or cancelled payment for its reference leaves it `fallida`: paid is not sticky |
| `Webhook.LastNotificationWins` | index.js:199-211 | after any sequence of notifications, each row keeps every column but estado, and its estado is that of the last notification addressed to it whose status maps to an estado (or its initial one); notifications with any other status are skipped |
| `Listado.RowsBetween` | index.js:163-165 | the rows with ids in a range, each once, and only rows of the table |
| `Listado.InsertNewestFirst` | index.js:164 | inserting into a newest-first sequence keeps it newest first and adds exactly that row |
| `Listado.SortNewestFirst` | index.js:164 | the sort result is a permutation of its input ordered by non-increasing `created_at` |
| `Listado.ListReservas` | index.js:160-171 | 200 with every row of the table exactly once, as stored, in non-increasing `created_at` order; the handler returns no table, so it cannot change one |
| `Lifecycle.Step` | index.js:54 | serving any booking or notification keeps every id between 1 and the AUTOINCREMENT high-water mark |
| `Lifecycle.Serve` | index.js:54 | the same invariant holds over any sequence of requests |
| `Lifecycle.ApprovedPaymentPaysBooking` | index.js:120-203 | a booking followed by an approved payment carrying the reference it sent leaves that row `pagado`, whatever the gateway answered for the preference, and every earlier row unchanged |
| `Lifecycle.ServeKeepsBookedFields` | index.js:143-210 | over any sequence of requests, an existing row keeps its fields, its `preference_id` and its `created_at`; only its estado may change |
| `Lifecycle.PendingThenApproved` | index.js:103-211 | from an empty table: a booking with a created preference gives row 1 pending with that preference id; a `pending` payment changes nothing; a later `approved` payment makes it `pagado` |
| `AsWritten.CreatePreferenceAsWritten` | index.js:141 | as bound in the code, a complete booking inserts its pending row and always answers 500, and no preference ever reaches the gateway |
| `AsWritten.HandleWebhookAsWritten` | index.js:186-190 | as bound in the code, every notification is acknowledged, no payment is ever queried, and the table does not change |
| `AsWritten.ServeAsWritten` | index.js:141-190 | serving requests as bound in the code keeps the AUTOINCREMENT invariant |
| `AsWritten.AsWrittenNeverSettles` | index.js:141-190 | as bound in the code, from an empty table no reservation ever gets a `preference_id` or leaves `pendiente` |
| `AsWritten.BoundGatewaySettles` | index.js:86-88 | from any valid table, a booking with a created preference and an approved payment for its reference leave the new row `pagado` with the preference id when the SDK instance `mp` is used; as bound in the code, the same two requests leave it `pendiente` with no preference id |

## Left out

- Express, CORS, the JSON body parser, the health check and the server start (index.js:15-21, 93-98, 223-226): HTTP plumbing.
- Opening SQLite, creating the `db` directory and running the DDL (index.js:26-76): I/O. Only the column defaults remain, as the values `Insert` gives a new row.
- Database errors: every handler's `catch` for a failed SQL call (500 for booking and listing, 200 for the webhook) is not modelled. The store never fails here.
- The `MP_ACCESS_TOKEN` check and the SDK constructor (index.js:81-88), and the SDK calls (index.js:141, 186): a foreign library. Their results are the `PreferenceAnswer` and `PaymentLookup` inputs.
- `Number(precio)`: `precio` is an integer in the request. Strings, booleans, fractions and NaN are not modelled, and neither are non-string values of the text fields or of `data.id`.
- `created_at` is an opaque integer clock passed to the booking handler. CURRENT_TIMESTAMP's one-second text format is not modelled.
- `BASE_URL` is a string parameter. When it is unset, JavaScript renders it as "undefined"; the model does not do that.
- `Decimal.ParseId`: digit strings with leading zeros are modelled. SQLite's other conversions of a TEXT parameter to an INTEGER key (signs, surrounding spaces, "5.0", exponents) are not: such references match no row here.
- `Reservas.Insert`: the id is unbounded. SQLite's SQLITE_FULL at the 64-bit maximum rowid is not modelled.
- Concurrency between requests: handlers run one after another. The code has no atomic conditional write to reason about.
- routes/admin.js: bcrypt comparison and JWT signing, which are foreign crypto and auth.
- scripts/initDb.js, initDb.js, createAdmin.js: one-shot bootstrap scripts that create tables and hash a default password.

## Findings

| source | as written | input that shows it | evidently intended | confidence | as-written member | corrected member |
|---|---|---|---|---|---|---|
| index.js:141 | `mercadopago.preferences.create(...)`, but the SDK is imported as `MercadoPago` and instantiated as `mp` (index.js:7, 86). `mercadopago` is bound nowhere, so the call throws a ReferenceError that the `catch` turns into 500, after the row is inserted | any complete booking, e.g. Ana / Plomería / Bogotá / 50000 | call the preference API through the `mp` instance, so that a gateway success attaches `preference_id` and returns `init_point` | high; not executed | `AsWritten.CreatePreferenceAsWritten`, `AsWritten.AsWrittenNeverSettles` | `Preferencias.CreatePreference`, `AsWritten.BoundGatewaySettles` |
| index.js:186 | `mercadopago.payment.findById(...)` has the same unbound name. It always throws into the "payment not found" branch, so no notification ever changes a row | any notification with a `data.id`, e.g. an approved payment for reference "1" | look the payment up through `mp` and apply the status mapping | high; not executed | `AsWritten.HandleWebhookAsWritten`, `AsWritten.AsWrittenNeverSettles` | `Webhook.HandleWebhook`, `Lifecycle.PendingThenApproved` |

=== FILE: as_written.dfy ===
/**
 The handlers as the code binds them. The SDK is imported as `MercadoPago` and
 instantiated as `mp`, but both handlers call through `mercadopago`, a name
 bound nowhere. Each such call throws a ReferenceError inside the handler's
 `try`, so the booking handler always takes its 500 branch after inserting
 the row, and the webhook always takes its "payment not found" branch.
 */
module AsWritten {
  import opened Wrappers
  import opened Decimal
  import opened Reservas
  import opened Http
  import opened Preferencias
  import opened Webhook
  import opened Lifecycle

  /** `mercadopago.preferences.create(...)` throws before any request leaves:
      a complete booking is inserted, nothing reaches the gateway, and the
      answer is 500. */
  function CreatePreferenceAsWritten(t: Table, req: CreateRequest, now: int, baseUrl: string): (o: CreateOutcome)
    requires Valid(t)
    ensures Complete(req) ==>
              && o.response == Response(500, Error(GatewayMessage))
              && AddsOneRow(t, o.table, o.table.lastId, RequestedRow(req, now, None))
    ensures !Complete(req) ==> o.response.status == 400 && o.table == t
    ensures o.sent == None
  {
    CreatePreference(t, req, now, baseUrl, CreateFailed).(sent := None)
  }

  /** `mercadopago.payment.findById(...)` throws before any query leaves:
      every notification is acknowledged and ignored. */
  function HandleWebhookAsWritten(t: Table, n: Notification): (o: WebhookOutcome)
    ensures o.response == Ok && o.table == t
    ensures o.queried == None
  {
    HandleWebhook(t, n, LookupFailed).(queried := None)
  }

  /** Serving requests as written: the gateway answers carried by the
      requests are never obtained. */
  function ServeAsWritten(t: Table, rs: seq<Request>, baseUrl: string): (t': Table)
    requires Valid(t)
    ensures Valid(t')
    decreases |rs|
  {
    if |rs| == 0 then t
    else
      var before := ServeAsWritten(t, rs[..|rs| - 1], baseUrl);
      match rs[|rs| - 1]
      case Booking(req, now, _) => CreatePreferenceAsWritten(before, req, now, baseUrl).table
      case Notify(n, _) => HandleWebhookAsWritten(before, n).table
  }

  /** No row has a checkout or a settled payment. */
  ghost predicate NeverSettled(t: Table) {
    forall id :: id in t.rows ==> t.rows[id].estado == Pendiente && t.rows[id].preferenceId == None
  }

  /** As written, from a fresh database no reservation ever gets a preference
      id or leaves 'pendiente', whatever is requested and whatever the gateway
      would have answered. */
  lemma {:induction false} AsWrittenNeverSettles(rs: seq<Request>, baseUrl: string)
    ensures NeverSettled(ServeAsWritten(Empty, rs, baseUrl))
    decreases |rs|
  {
    if |rs| > 0 {
      AsWrittenNeverSettles(rs[..|rs| - 1], baseUrl);
    }
  }

  /** With the SDK instance bound, a booking whose preference is created and an
      approved payment for the reference it sent settle the new row; as
      written, the same two requests leave it pending with no preference id. */
  lemma BoundGatewaySettles(t: Table, req: CreateRequest, now: int, baseUrl: string,
                            pid: string, url: string, n: Notification)
    requires Valid(t) && Complete(req) && TruthyText(n.dataId)
    ensures var id := t.lastId + 1;
            var rs := [Booking(req, now, Created(pid, url)),
                       Notify(n, Found(Payment("approved", Some(NatToDecimal(id)))))];
            var bound := Serve(t, rs, baseUrl);
            var unbound := ServeAsWritten(t, rs, baseUrl);
            && id in bound.rows && bound.rows[id] == RequestedRow(req, now, Some(pid)).(estado := Pagado)
            && id in unbound.rows && unbound.rows[id] == RequestedRow(req, now, None)
  {
    var id := t.lastId + 1;
    var rs := [Booking(req, now, Created(pid, url)),
               Notify(n, Found(Payment("approved", Some(NatToDecimal(id)))))];
    assert rs[..1] == [rs[0]] && [rs[0]][..0] == [];
    ParseDecimal(id);
    var booked := CreatePreference(t, req, now, baseUrl, Created(pid, url)).table;
    assert Serve(t, rs[..1], baseUrl) == booked;
    var bookedAsWritten := CreatePreferenceAsWritten(t, req, now, baseUrl).table;
    assert ServeAsWritten(t, rs[..1], baseUrl) == bookedAsWritten;
  }
}

=== FILE: decimal.dfy ===
/**
 Decimal rendering and parsing of reservation ids.

 The booking handler sends a reservation id to the payment gateway as the
 decimal string `reservaId.toString()`; the webhook gets the same string back
 as `external_reference` and binds it to `WHERE id = ?`, where SQLite's
 INTEGER affinity turns a well-formed decimal text back into the rowid.
 */
module Decimal {
  import opened Wrappers

  predicate IsDigit(c: char) {
    '0' <= c <= '9'
  }

  predicate AllDigits(s: string) {
    forall i :: 0 <= i < |s| ==> IsDigit(s[i])
  }

  function DigitValue(c: char): (d: nat)
    requires IsDigit(c)
    ensures d < 10
  {
    (c as int) - ('0' as int)
  }

  function DigitChar(d: nat): (c: char)
    requires d < 10
    ensures IsDigit(c) && DigitValue(c) == d
  {
    (('0' as int) + d) as char
  }

  /** `n.toString()` for a non-negative integer: canonical decimal, no leading zero. */
  function NatToDecimal(n: nat): (s: string)
    ensures |s| > 0 && AllDigits(s)
    ensures n > 0 ==> s[0] != '0'
    decreases n
  {
    if n < 10 then [DigitChar(n)] else NatToDecimal(n / 10) + [DigitChar(n % 10)]
  }

  /** The value of a string of decimal digits (leading zeros allowed). */
  function DigitsValue(s: string): nat
    requires AllDigits(s)
  {
    if |s| == 0 then 0 else DigitsValue(s[..|s| - 1]) * 10 + DigitValue(s[|s| - 1])
  }

  /** The rowid a TEXT parameter denotes when compared with the INTEGER
      primary key: a non-empty run of decimal digits; anything else matches no row. */
  function ParseId(s: string): (r: Option<nat>)
    ensures r.Some? <==> |s| > 0 && AllDigits(s)
  {
    if |s| > 0 && AllDigits(s) then Some(DigitsValue(s)) else None
  }

  lemma {:induction false} DigitsValueOfDecimal(n: nat)
    ensures DigitsValue(NatToDecimal(n)) == n
    decreases n
  {
    var s := NatToDecimal(n);
    if n < 10 {
      assert s[..|s| - 1] == [];
    } else {
      assert s[..|s| - 1] == NatToDecimal(n / 10);
      DigitsValueOfDecimal(n / 10);
    }
  }

  /** Round trip: the string sent as `external_reference` resolves to the same id. */
  lemma ParseDecimal(n: nat)
    ensures ParseId(NatToDecimal(n)) == Some(n)
  {
    DigitsValueOfDecimal(n);
  }

  /** Distinct reservations are sent distinct references. */
  lemma DecimalInjective(a: nat, b: nat)
    requires NatToDecimal(a) == NatToDecimal(b)
    ensures a == b
  {
    ParseDecimal(a);
    ParseDecimal(b);
  }
}

=== FILE: http.dfy ===
/** The responses the handlers send: a status code and a JSON body. */
module Http {
  import opened Wrappers
  import opened Reservas

  datatype Body =
    | NoBody                      // res.sendStatus(200)
    | InitPoint(url: string)      // { init_point }
    | Error(message: string)      // { error }
    | Listing(rows: seq<Row>)     // the rows of SELECT *

  datatype Response = Response(status: int, body: Body)

  const Ok: Response := Response(200, NoBody)

  /** JavaScript truthiness of a string value read from a JSON body:
      present and not "". */
  predicate TruthyText(v: Option<string>) {
    v.Some? && v.value != ""
  }
}

=== FILE: lifecycle.dfy ===
/**
 The reservation lifecycle across handlers: bookings and payment notifications
 served one after another against the same table.
 */
module Lifecycle {
  import opened Wrappers
  import opened Decimal
  import opened Reservas
  import opened Http
  import opened Preferencias
  import opened Webhook

  /** A request together with the gateway's answer to the call it makes. */
  datatype Request =
    | Booking(req: CreateRequest, now: int, answer: PreferenceAnswer)
    | Notify(notification: Notification, lookup: PaymentLookup)

  function Step(t: Table, r: Request, baseUrl: string): (t': Table)
    requires Valid(t)
    ensures Valid(t')
  {
    match r
    case Booking(req, now, answer) => CreatePreference(t, req, now, baseUrl, answer).table
    case Notify(n, lookup) => HandleWebhook(t, n, lookup).table
  }

  /** The table after serving `rs` in order. */
  function Serve(t: Table, rs: seq<Request>, baseUrl: string): (t': Table)
    requires Valid(t)
    ensures Valid(t')
    decreases |rs|
  {
    if |rs| == 0 then t
    else Step(Serve(t, rs[..|rs| - 1], baseUrl), rs[|rs| - 1], baseUrl)
  }

  /** A booking followed by an approved payment for the reference it sent
      leaves the new row paid and every earlier row as it was. */
  lemma ApprovedPaymentPaysBooking(t: Table, req: CreateRequest, now: int, baseUrl: string,
                                   answer: PreferenceAnswer, n: Notification)
    requires Valid(t) && Complete(req) && TruthyText(n.dataId)
    ensures var o := CreatePreference(t, req, now, baseUrl, answer);
            var w := HandleWebhook(o.table, n, Found(Payment("approved", Some(o.sent.value.externalReference))));
            var id := o.table.lastId;
            && id in w.table.rows
            && w.table.rows[id] == o.table.rows[id].(estado := Pagado)
            && w.table.rows.Keys == t.rows.Keys + {id}
            && (forall k :: k in t.rows ==> w.table.rows[k] == t.rows[k])
  {
    SentReferenceNamesNewRow(t, req, now, baseUrl, answer);
  }

  /** Existing rows keep every column but `estado`, whatever is served:
      bookings only add rows, and notifications only write `estado`. */
  lemma {:induction false} ServeKeepsBookedFields(t: Table, rs: seq<Request>, baseUrl: string, id: nat)
    requires Valid(t) && id in t.rows
    ensures var t' := Serve(t, rs, baseUrl);
            id in t'.rows && t'.rows[id] == t.rows[id].(estado := t'.rows[id].estado)
    decreases |rs|
  {
    if |rs| > 0 {
      ServeKeepsBookedFields(t, rs[..|rs| - 1], baseUrl, id);
    }
  }

  /** The booking scenario end to end: a fresh database, one booking whose
      preference is created, a notification still pending, then an approval. */
  lemma PendingThenApproved(url: string, baseUrl: string)
    ensures var booking := Booking(CreateRequest(Some("Ana"), Some("Plomería"), Some("Bogotá"), Some(50000)),
                                   0, Created("pref-1", url));
            var t1 := Serve(Empty, [booking], baseUrl);
            var t2 := Serve(Empty, [booking, Notify(Notification(Some("77")), Found(Payment("pending", Some("1"))))], baseUrl);
            var t3 := Serve(Empty, [booking, Notify(Notification(Some("77")), Found(Payment("pending", Some("1")))),
                                    Notify(Notification(Some("78")), Found(Payment("approved", Some("1"))))], baseUrl);
            && t1.rows.Keys == {1}
            && t1.rows[1] == Reserva("Ana", "Plomería", "Bogotá", 50000, Pendiente, Some("pref-1"), 0)
            && t2 == t1
            && t3.rows.Keys == {1}
            && t3.rows[1] == t1.rows[1].(estado := Pagado)
  {
    var booking := Booking(CreateRequest(Some("Ana"), Some("Plomería"), Some("Bogotá"), Some(50000)),
                           0, Created("pref-1", url));
    var pending := Notify(Notification(Some("77")), Found(Payment("pending", Some("1"))));
    var approved := Notify(Notification(Some("78")), Found(Payment("approved", Some("1"))));
    assert [booking, pending][..1] == [booking];
    assert [booking, pending, approved][..2] == [booking, pending];
    assert ParseId("1") == Some(1) by { ParseDecimal(1); }
  }
}

=== FILE: listado.dfy ===
/**
 `GET /reservas`: `SELECT * FROM reservas ORDER BY created_at DESC`. A read-only
 handler: it returns a response and no table. Rows with equal `created_at` may
 come in any order, so only the ordering and the contents are promised.
 */
module Listado {
  import opened Reservas
  import opened Http

  /** Newest first: `created_at` never increases along the sequence. */
  ghost predicate NewestFirst(s: seq<Row>) {
    forall i, j :: 0 <= i < j < |s| ==> s[i].reserva.createdAt >= s[j].reserva.createdAt
  }

  /** The rows whose ids lie in [lo, hi), in id order. */
  function RowsBetween(rows: map<nat, Reserva>, lo: nat, hi: nat): (r: seq<Row>)
    ensures forall row :: row in r ==> lo <= row.id < hi && row.id in rows && rows[row.id] == row.reserva
    ensures forall id :: id in rows && lo <= id < hi ==> Row(id, rows[id]) in r
    ensures |r| == |set id | id in rows && lo <= id < hi|
    decreases hi - lo
  {
    if hi <= lo then
      assert (set id | id in rows && lo <= id < hi) == {};
      []
    else
      var rest := RowsBetween(rows, lo + 1, hi);
      if lo in rows then
        assert (set id | id in rows && lo <= id < hi) == {lo} + (set id | id in rows && lo + 1 <= id < hi);
        [Row(lo, rows[lo])] + rest
      else
        assert (set id | id in rows && lo <= id < hi) == (set id | id in rows && lo + 1 <= id < hi);
        rest
  }

  /** Places `x` in a newest-first sequence, keeping it newest first. */
  function InsertNewestFirst(x: Row, s: seq<Row>): (r: seq<Row>)
    requires NewestFirst(s)
    ensures NewestFirst(r)
    ensures multiset(r) == multiset(s) + multiset{x}
    ensures forall y :: y in r ==> y in s || y == x
  {
    if |s| == 0 then [x]
    else if x.reserva.createdAt >= s[0].reserva.createdAt then [x] + s
    else
      var rest := InsertNewestFirst(x, s[1..]);
      assert s == [s[0]] + s[1..];
      forall y | y in rest
        ensures y.reserva.createdAt <= s[0].reserva.createdAt
      {
        if y != x {
          HeadIsNewest(s, y);
        }
      }
      [s[0]] + rest
  }

  /** Insertion sort, newest first; a permutation of its input. */
  function SortNewestFirst(s: seq<Row>): (r: seq<Row>)
    ensures NewestFirst(r)
    ensures multiset(r) == multiset(s)
  {
    if |s| == 0 then []
    else
      assert s == [s[0]] + s[1..];
      InsertNewestFirst(s[0], SortNewestFirst(s[1..]))
  }

  /** The handler: every row exactly once, newest first. */
  function ListReservas(t: Table): (resp: Response)
    requires Valid(t)
    ensures resp.status == 200 && resp.body.Listing?
    ensures NewestFirst(resp.body.rows)
    ensures forall row :: row in resp.body.rows ==> row.id in t.rows && t.rows[row.id] == row.reserva
    ensures forall id :: id in t.rows ==> Row(id, t.rows[id]) in resp.body.rows
    ensures |resp.body.rows| == |t.rows|
  {
    var all := RowsBetween(t.rows, 1, t.lastId + 1);
    IdsInRange(t);
    var sorted := SortNewestFirst(all);
    SameElements(sorted, all);
    Response(200, Listing(sorted))
  }

  /** Two sequences with the same multiset have the same length and elements. */
  lemma SameElements(a: seq<Row>, b: seq<Row>)
    requires multiset(a) == multiset(b)
    ensures |a| == |b|
    ensures forall x :: x in a <==> x in b
  {
    assert |a| == |multiset(a)|;
    assert |b| == |multiset(b)|;
    forall x ensures x in a <==> x in b {
      assert x in a <==> x in multiset(a);
      assert x in b <==> x in multiset(b);
    }
  }

  /** In a valid table the ids 1 .. lastId cover every row. */
  lemma IdsInRange(t: Table)
    requires Valid(t)
    ensures |set id | id in t.rows && 1 <= id < t.lastId + 1| == |t.rows|
  {
    assert (set id | id in t.rows && 1 <= id < t.lastId + 1) == t.rows.Keys;
  }

  /** The head of a newest-first sequence is at least as new as anything after it. */
  lemma HeadIsNewest(s: seq<Row>, y: Row)
    requires NewestFirst(s) && |s| > 0 && y in s[1..]
    ensures y.reserva.createdAt <= s[0].reserva.createdAt
  {
    var m :| 0 <= m < |s[1..]| && s[1..][m] == y;
    assert s[m + 1] == y;
  }
}

=== FILE: preferencias.dfy ===
/**
 `POST /crear-preferencia`: validate the booking, insert a pending reservation,
 ask the payment gateway for a checkout preference that refers back to the new
 id, and attach the preference id the gateway returns.

 The gateway is not modelled: its answer is an input, and the handler reports
 the preference it sent so that the contents of that request can be stated.
 */
module Preferencias {
  import opened Wrappers
  import opened Decimal
  import opened Reservas
  import opened Http

  /** The four fields read from the JSON body; `None` is a missing field. */
  datatype CreateRequest = CreateRequest(
    profesional: Option<string>,
    categoria: Option<string>,
    ciudad: Option<string>,
    precio: Option<int>)

  /** JavaScript truthiness of a numeric field: present and not 0. */
  predicate TruthyNumber(v: Option<int>) {
    v.Some? && v.value != 0
  }

  /** The negation of `!profesional || !categoria || !ciudad || !precio`. */
  predicate Complete(req: CreateRequest) {
    TruthyText(req.profesional) && TruthyText(req.categoria) && TruthyText(req.ciudad)
    && TruthyNumber(req.precio)
  }

  datatype Item = Item(title: string, quantity: int, unitPrice: int, currencyId: string)

  datatype BackUrls = BackUrls(success: string, failure: string, pending: string)

  /** The preference object handed to the gateway. */
  datatype Preference = Preference(
    items: seq<Item>,
    backUrls: BackUrls,
    autoReturn: string,
    externalReference: string,
    notificationUrl: string)

  /** What the gateway's `preferences.create` yields: the preference id and the
      checkout URL, or a thrown error. */
  datatype PreferenceAnswer = Created(id: string, initPoint: string) | CreateFailed

  const Currency: string := "COP"
  const FrontendBackUrls: BackUrls := BackUrls(
    "https://profixa.netlify.app/success",
    "https://profixa.netlify.app/failure",
    "https://profixa.netlify.app/pending")
  const IncompleteMessage: string := "Datos incompletos"
  const GatewayMessage: string := "Error creando preferencia"

  datatype CreateOutcome = CreateOutcome(table: Table, response: Response, sent: Option<Preference>)

  /** The row a complete request inserts, with `preference_id` as given. */
  function RequestedRow(req: CreateRequest, now: int, preferenceId: Option<string>): Reserva
    requires Complete(req)
  {
    Reserva(req.profesional.value, req.categoria.value, req.ciudad.value, req.precio.value,
            Pendiente, preferenceId, now)
  }

  function BuildPreference(id: nat, categoria: string, profesional: string, precio: int,
                           baseUrl: string): Preference
  {
    Preference(
      [Item(categoria + " - " + profesional, 1, precio, Currency)],
      FrontendBackUrls,
      "approved",
      NatToDecimal(id),
      baseUrl + "/webhook")
  }

  /** The handler. `now` is the insertion clock, `baseUrl` the BASE_URL setting,
      `answer` the gateway's reply to the preference it is sent. */
  function CreatePreference(t: Table, req: CreateRequest, now: int, baseUrl: string,
                            answer: PreferenceAnswer): (o: CreateOutcome)
    requires Valid(t)
    ensures Valid(o.table)
    // Validation: 400 exactly for incomplete requests, and then nothing is written or sent.
    ensures o.response.status == 400 <==> !Complete(req)
    ensures !Complete(req) ==>
              o.table == t && o.sent == None && o.response.body == Error(IncompleteMessage)
    // A complete request inserts exactly one pending row under a fresh, larger id ...
    ensures Complete(req) && answer.Created? ==>
              AddsOneRow(t, o.table, o.table.lastId, RequestedRow(req, now, Some(answer.id)))
              && o.response == Response(200, InitPoint(answer.initPoint))
    // ... which stays without a preference id when the gateway fails.
    ensures Complete(req) && answer.CreateFailed? ==>
              AddsOneRow(t, o.table, o.table.lastId, RequestedRow(req, now, None))
              && o.response == Response(500, Error(GatewayMessage))
    // The preference sent refers to the new row and charges its price once, in COP.
    ensures Complete(req) ==>
              && o.sent.Some?
              && o.sent.value.externalReference == NatToDecimal(o.table.lastId)
              && o.sent.value.items
                 == [Item(req.categoria.value + " - " + req.profesional.value, 1, req.precio.value, Currency)]
              && o.sent.value.backUrls == FrontendBackUrls
              && o.sent.value.autoReturn == "approved"
              && o.sent.value.notificationUrl == baseUrl + "/webhook"
  {
    if !Complete(req) then
      CreateOutcome(t, Response(400, Error(IncompleteMessage)), None)
    else
      var ins := Insert(t, req.profesional.value, req.categoria.value, req.ciudad.value,
                        req.precio.value, now);
      var pref := BuildPreference(ins.id, req.categoria.value, req.profesional.value,
                                  req.precio.value, baseUrl);
      match answer
      case Created(pid, url) =>
        CreateOutcome(SetPreferenceId(ins.table, ins.id, pid), Response(200, InitPoint(url)), Some(pref))
      case CreateFailed =>
        CreateOutcome(ins.table, Response(500, Error(GatewayMessage)), Some(pref))
  }

  /** The check is truthiness only: any non-zero price, negative ones included,
      is stored as given. */
  lemma NonZeroPriceAccepted(t: Table, req: CreateRequest, now: int, baseUrl: string,
                             answer: PreferenceAnswer)
    requires Valid(t)
    requires TruthyText(req.profesional) && TruthyText(req.categoria) && TruthyText(req.ciudad)
    requires req.precio.Some? && req.precio.value != 0
    ensures var o := CreatePreference(t, req, now, baseUrl, answer);
            o.response.status != 400
            && o.table.lastId in o.table.rows
            && o.table.rows[o.table.lastId].precio == req.precio.value
  {
  }

  /** The reference sent to the gateway names the inserted row and no other. */
  lemma SentReferenceNamesNewRow(t: Table, req: CreateRequest, now: int, baseUrl: string,
                                 answer: PreferenceAnswer)
    requires Valid(t) && Complete(req)
    ensures var o := CreatePreference(t, req, now, baseUrl, answer);
            && o.sent.Some?
            && ParseId(o.sent.value.externalReference) == Some(o.table.lastId)
            && o.table.lastId in o.table.rows
            && o.table.lastId !in t.rows
  {
    var o := CreatePreference(t, req, now, baseUrl, answer);
    ParseDecimal(o.table.lastId);
  }
}

=== FILE: reservas.dfy ===
/**
 The `reservas` table: rows keyed by their INTEGER PRIMARY KEY AUTOINCREMENT id,
 together with AUTOINCREMENT's high-water mark (the table's `sqlite_sequence` entry).
 The three SQL statements the handlers issue against it are the functions below.
 */
module Reservas {
  import opened Wrappers

  /** The three values the handlers ever store in the `estado` TEXT column. */
  datatype Estado = Pendiente | Pagado | Fallida

  /** One row. `estado` defaults to 'pendiente', `preference_id` to NULL and
      `created_at` to the insertion time, an opaque ordered timestamp here. */
  datatype Reserva = Reserva(
    profesional: string,
    categoria: string,
    ciudad: string,
    precio: int,
    estado: Estado,
    preferenceId: Option<string>,
    createdAt: int)

  /** A row as returned by `SELECT *`: its id and its columns. */
  datatype Row = Row(id: nat, reserva: Reserva)

  datatype Table = Table(rows: map<nat, Reserva>, lastId: nat)

  /** A freshly created database: no rows, no id handed out yet. */
  const Empty: Table := Table(map[], 0)

  /** AUTOINCREMENT ids start at 1 and the high-water mark is never below a used id. */
  ghost predicate Valid(t: Table) {
    forall id :: id in t.rows ==> 1 <= id <= t.lastId
  }

  /** `t'` is `t` with exactly one new row `r` under `id`, an id larger than every
      id `t` holds; no existing row changes. */
  ghost predicate AddsOneRow(t: Table, t': Table, id: nat, r: Reserva) {
    && id !in t.rows
    && (forall k :: k in t.rows ==> k < id)
    && t'.rows.Keys == t.rows.Keys + {id}
    && (forall k :: k in t.rows ==> t'.rows[k] == t.rows[k])
    && t'.rows[id] == r
  }

  /** Every row other than `id` is untouched and no row is added or removed. */
  ghost predicate OnlyRowChanged(t: Table, t': Table, id: nat) {
    && t'.lastId == t.lastId
    && t'.rows.Keys == t.rows.Keys
    && (forall k :: k in t.rows && k != id ==> t'.rows[k] == t.rows[k])
  }

  datatype Inserted = Inserted(table: Table, id: nat)

  /** `INSERT INTO reservas (profesional, categoria, ciudad, precio) VALUES (?, ?, ?, ?)`,
      with `result.lastID` as the id. */
  function Insert(t: Table, profesional: string, categoria: string, ciudad: string,
                  precio: int, now: int): (r: Inserted)
    requires Valid(t)
    ensures Valid(r.table) && r.table.lastId == r.id
    ensures AddsOneRow(t, r.table, r.id,
                       Reserva(profesional, categoria, ciudad, precio, Pendiente, None, now))
  {
    var id := t.lastId + 1;
    Inserted(Table(t.rows[id := Reserva(profesional, categoria, ciudad, precio, Pendiente, None, now)], id), id)
  }

  /** `UPDATE reservas SET estado = ? WHERE id = ?`: unconditional, whatever the
      row's current estado; an id with no row updates nothing. */
  function SetEstado(t: Table, id: nat, e: Estado): (t': Table)
    ensures OnlyRowChanged(t, t', id) && (Valid(t) ==> Valid(t'))
    ensures id in t.rows ==> t'.rows[id] == t.rows[id].(estado := e)
    ensures id !in t.rows ==> t' == t
  {
    if id in t.rows then t.(rows := t.rows[id := t.rows[id].(estado := e)]) else t
  }

  /** `UPDATE reservas SET preference_id = ? WHERE id = ?`. */
  function SetPreferenceId(t: Table, id: nat, p: string): (t': Table)
    ensures OnlyRowChanged(t, t', id) && (Valid(t) ==> Valid(t'))
    ensures id in t.rows ==> t'.rows[id] == t.rows[id].(preferenceId := Some(p))
    ensures id !in t.rows ==> t' == t
  {
    if id in t.rows then t.(rows := t.rows[id := t.rows[id].(preferenceId := Some(p))]) else t
  }
}

=== FILE: webhook.dfy ===
/**
 `POST /webhook`: the payment gateway's notification. The handler looks the
 payment up by the notified id, reads the payment's status and
 `external_reference`, and writes the mapped `estado` to the row with that id.
 It always acknowledges with 200.

 The gateway lookup is not modelled: its answer is an input, and the handler
 reports which payment id it queried.
 */
module Webhook {
  import opened Wrappers
  import opened Decimal
  import opened Reservas
  import opened Http

  /** `req.body?.data?.id`; `None` when the body or `data` is missing. */
  datatype Notification = Notification(dataId: Option<string>)

  /** The canonical payment the gateway returns: `body.status` and `body.external_reference`. */
  datatype Payment = Payment(status: string, externalReference: Option<string>)

  /** The gateway's `payment.findById`: the payment, or a thrown error. */
  datatype PaymentLookup = Found(payment: Payment) | LookupFailed

  datatype WebhookOutcome = WebhookOutcome(table: Table, response: Response, queried: Option<string>)

  /** The status mapping as a table: approved pays, rejected or cancelled fails,
      every other status leaves the row alone. */
  function TargetEstado(status: string): (r: Option<Estado>)
    ensures r == Some(Pagado) <==> status == "approved"
    ensures r == Some(Fallida) <==> status == "rejected" || status == "cancelled"
    ensures r.None? <==> status != "approved" && status != "rejected" && status != "cancelled"
  {
    if status == "approved" then Some(Pagado)
    else if status == "rejected" || status == "cancelled" then Some(Fallida)
    else None
  }

  /** A status write: the id it resolves to and the estado it stores. */
  datatype Update = Update(id: nat, estado: Estado)

  /** The write a notification calls for, decided from its inputs alone; the
      reference against which the handler is stated. */
  function Effect(n: Notification, lookup: PaymentLookup): Option<Update> {
    if !TruthyText(n.dataId) || lookup.LookupFailed? || !TruthyText(lookup.payment.externalReference) then None
    else
      match (ParseId(lookup.payment.externalReference.value), TargetEstado(lookup.payment.status))
      case (Some(id), Some(e)) => Some(Update(id, e))
      case _ => None
  }

  /** `UPDATE reservas SET estado = ? WHERE id = ?` with the reference as a TEXT parameter. */
  function UpdateWhere(t: Table, reference: string, e: Estado): Table {
    match ParseId(reference)
    case Some(id) => SetEstado(t, id, e)
    case None => t
  }

  /** The handler, statement by statement. */
  function HandleWebhook(t: Table, n: Notification, lookup: PaymentLookup): (o: WebhookOutcome)
    // Always acknowledged.
    ensures o.response == Ok
    // The payment is looked up by the notified id, and only when there is one.
    ensures o.queried.Some? <==> TruthyText(n.dataId)
    ensures o.queried.Some? ==> o.queried == n.dataId
    // Early exits leave the table alone.
    ensures (!TruthyText(n.dataId) || lookup.LookupFailed? || !TruthyText(lookup.payment.externalReference))
            ==> o.table == t
    // Otherwise at most the referenced row changes, and only its estado, whatever it was.
    ensures Effect(n, lookup).None? ==> o.table == t
    ensures Effect(n, lookup).Some? ==>
              var u := Effect(n, lookup).value;
              && OnlyRowChanged(t, o.table, u.id)
              && (u.id in t.rows ==> o.table.rows[u.id] == t.rows[u.id].(estado := u.estado))
              && (u.id !in t.rows ==> o.table == t)
    ensures Valid(t) ==> Valid(o.table)
  {
    if !TruthyText(n.dataId) then
      WebhookOutcome(t, Ok, None)
    else
      var queried := Some(n.dataId.value);
      match lookup
      case LookupFailed => WebhookOutcome(t, Ok, queried)
      case Found(p) =>
        if !TruthyText(p.externalReference) then
          WebhookOutcome(t, Ok, queried)
        else
          var reference := p.externalReference.value;
          var t1 := if p.status == "approved" then UpdateWhere(t, reference, Pagado) else t;
          var t2 := if p.status == "rejected" || p.status == "cancelled"
                    then UpdateWhere(t1, reference, Fallida) else t1;
          WebhookOutcome(t2, Ok, queried)
  }

  /** A notification pair: what arrived and what the gateway then answered. */
  datatype Delivery = Delivery(notification: Notification, lookup: PaymentLookup)

  /** The table after handling the deliveries in order. */
  function Deliver(t: Table, ds: seq<Delivery>): Table
    decreases |ds|
  {
    if |ds| == 0 then t
    else
      var last := ds[|ds| - 1];
      HandleWebhook(Deliver(t, ds[..|ds| - 1]), last.notification, last.lookup).table
  }

  /** The estado the last delivery addressed to `id` calls for, else `initial`. */
  function LastWritten(initial: Estado, id: nat, ds: seq<Delivery>): Estado
    decreases |ds|
  {
    if |ds| == 0 then initial
    else
      var last := ds[|ds| - 1];
      match Effect(last.notification, last.lookup)
      case Some(u) => if u.id == id then u.estado else LastWritten(initial, id, ds[..|ds| - 1])
      case None => LastWritten(initial, id, ds[..|ds| - 1])
  }

  /** Whatever the order of arrival, a row ends in the estado of the last
      notification that addressed it, and nothing else about it changes. */
  lemma {:induction false} LastNotificationWins(t: Table, ds: seq<Delivery>, id: nat)
    requires id in t.rows
    ensures Deliver(t, ds).rows.Keys == t.rows.Keys
    ensures Deliver(t, ds).rows[id] == t.rows[id].(estado := LastWritten(t.rows[id].estado, id, ds))
    decreases |ds|
  {
    if |ds| > 0 {
      LastNotificationWins(t, ds[..|ds| - 1], id);
    }
  }

  /** At-least-once delivery: a notification redelivered right after itself,
      at any point of a sequence, leaves the table as one delivery did. */
  lemma {:induction false} ReplayIdempotent(t: Table, ds: seq<Delivery>, d: Delivery)
    ensures Deliver(t, ds + [d, d]) == Deliver(t, ds + [d])
  {
    assert (ds + [d, d])[..|ds| + 1] == ds + [d];
    assert (ds + [d])[..|ds|] == ds;
  }

  /** No compare-and-set: whatever earlier notifications did to a row, an
      approval included, a rejected or cancelled payment for its reference
      leaves it 'fallida'. */
  lemma FailureOverwritesPaid(t: Table, ds: seq<Delivery>, id: nat, n: Notification,
                              status: string, reference: string)
    requires id in t.rows && ParseId(reference) == Some(id)
    requires TruthyText(n.dataId)
    requires status == "rejected" || status == "cancelled"
    ensures var t' := Deliver(t, ds + [Delivery(n, Found(Payment(status, Some(reference))))]);
            id in t'.rows && t'.rows[id].estado == Fallida
  {
    var d := Delivery(n, Found(Payment(status, Some(reference))));
    var before := Deliver(t, ds);
    LastNotificationWins(t, ds, id);
    assert id in before.rows;
    assert (ds + [d])[..|ds|] == ds;
    assert Deliver(t, ds + [d]) == HandleWebhook(before, n, d.lookup).table;
    assert TargetEstado(status) == Some(Fallida);
    assert Effect(n, d.lookup) == Some(Update(id, Fallida));
  }

  /** At-least-once delivery without a compare-and-set: an approval that is
      redelivered after a later rejection writes 'pagado' back over 'fallida',
      so a delayed duplicate is not idempotent. */
  lemma DelayedReplayReapplies(t: Table, ds: seq<Delivery>, id: nat, reference: string,
                               n: Notification, m: Notification)
    requires id in t.rows && ParseId(reference) == Some(id)
    requires TruthyText(n.dataId) && TruthyText(m.dataId)
    ensures var approved := Delivery(n, Found(Payment("approved", Some(reference))));
            var rejected := Delivery(m, Found(Payment("rejected", Some(reference))));
            var once := Deliver(t, ds + [approved, rejected]);
            var replayed := Deliver(t, ds + [approved, rejected, approved]);
            && id in once.rows && once.rows[id].estado == Fallida
            && id in replayed.rows && replayed.rows[id].estado == Pagado
            && once != replayed
  {
    var approved := Delivery(n, Found(Payment("approved", Some(reference))));
    var rejected := Delivery(m, Found(Payment("rejected", Some(reference))));
    var two := ds + [approved, rejected];
    var three := ds + [approved, rejected, approved];
    assert three[..|three| - 1] == two;
    assert two[..|two| - 1] == ds + [approved];
    assert TargetEstado("approved") == Some(Pagado);
    assert TargetEstado("rejected") == Some(Fallida);
    assert Effect(approved.notification, approved.lookup) == Some(Update(id, Pagado));
    assert Effect(rejected.notification, rejected.lookup) == Some(Update(id, Fallida));
    LastNotificationWins(t, two, id);
    LastNotificationWins(t, three, id);
    assert LastWritten(t.rows[id].estado, id, two) == Fallida;
    assert LastWritten(t.rows[id].estado, id, three) == Pagado;
  }

  /** Handling notifications never adds or removes a row. */
  lemma {:induction false} DeliverKeepsKeys(t: Table, ds: seq<Delivery>)
    ensures Deliver(t, ds).rows.Keys == t.rows.Keys
    decreases |ds|
  {
    if |ds| > 0 {
      DeliverKeepsKeys(t, ds[..|ds| - 1]);
    }
  }

  /** `x` writes nothing to row `id` other than `e`. */
  ghost predicate KeepsEstado(x: Delivery, id: nat, e: Estado) {
    match Effect(x.notification, x.lookup)
    case Some(u) => u.id != id || u.estado == e
    case None => true
  }

  /** Deliveries that write nothing but `e` to row `id` leave the estado last written there. */
  lemma {:induction false} LastWrittenKept(initial: Estado, id: nat, p: seq<Delivery>, xs: seq<Delivery>, e: Estado)
    requires LastWritten(initial, id, p) == e
    requires forall i :: 0 <= i < |xs| ==> KeepsEstado(xs[i], id, e)
    ensures LastWritten(initial, id, p + xs) == e
    decreases |xs|
  {
    if |xs| > 0 {
      var front := xs[..|xs| - 1];
      assert (p + xs)[..|p + xs| - 1] == p + front;
      assert KeepsEstado(xs[|xs| - 1], id, e);
      LastWrittenKept(initial, id, p, front, e);
      assert (p + xs)[|p + xs| - 1] == xs[|xs| - 1];
    } else {
      assert p + xs == p;
    }
  }

  /** A late duplicate is harmless exactly when nothing in between wrote a
      different estado to the row it addresses: then its write repeats the
      value already stored. */
  lemma DelayedReplayHarmless(t: Table, ds: seq<Delivery>, d: Delivery, xs: seq<Delivery>)
    requires Effect(d.notification, d.lookup).Some? ==>
               var u := Effect(d.notification, d.lookup).value;
               forall i :: 0 <= i < |xs| ==> KeepsEstado(xs[i], u.id, u.estado)
    ensures Deliver(t, ds + [d] + xs + [d]) == Deliver(t, ds + [d] + xs)
  {
    var p := ds + [d] + xs;
    var before := Deliver(t, p);
    assert (p + [d])[..|p + [d]| - 1] == p;
    assert Deliver(t, p + [d]) == HandleWebhook(before, d.notification, d.lookup).table;
    match Effect(d.notification, d.lookup)
    case None =>
    case Some(u) =>
      DeliverKeepsKeys(t, p);
      if u.id in t.rows {
        var q := ds + [d];
        assert q[..|q| - 1] == ds;
        assert LastWritten(t.rows[u.id].estado, u.id, q) == u.estado;
        LastWrittenKept(t.rows[u.id].estado, u.id, q, xs, u.estado);
        LastNotificationWins(t, p, u.id);
        assert before.rows[u.id].estado == u.estado;
        assert before.rows[u.id].(estado := u.estado) == before.rows[u.id];
        assert before.rows[u.id := before.rows[u.id]] == before.rows;
      }
  }
}

=== FILE: wrappers.dfy ===
/** Optional values: a JSON field that may be missing, a nullable column. */
module Wrappers {

  datatype Option<+T> = None | Some(value: T)
}
